=== FILE: README.md ===
# WireMailGmail in Dafny

A model of the sending core of the ProcessWire module `WireMailGmail`, which
delivers WireMail messages through the Gmail API instead of SMTP. The model
covers these parts of the module:

- the raw message that `sendGmailTo` builds for one recipient:
  `To:` line, `Subject:` line, the rendered header block, an empty line, then the body;
- its URL-safe, unpadded base 64 encoding, `rtrim(strtr(base64_encode($data), '+/', '-_'), '=')`;
- the sender identity: the configured `fromGoogleEmail`, or else `"me"`;
- the "from" rule of `___send`;
- the memoised resolution of the Gmail service (`getGmailService`);
- the dispatch loop that sends once per recipient and counts acceptances;
- the per-recipient fault handling, which logs the fault and shows it as an error only to a superuser.

Modules, one file each:

- `Wrappers`: `Option` and `Result`.
- `ByteStrings`: PHP strings as byte sequences, PHP truthiness (`""` and `"0"` are false), first-occurrence search.
- `Base64`:
  - RFC 4648 encoding: the standard alphabet and padding of section 4, the URL- and filename-safe alphabet of section 5, and padding left out as section 3.2 allows;
  - a strict decoder, used as the partner that proves the round trip.
- `MessageEncoder`: the raw message layout, a parser that reads it back (the partner of the layout), the `To:` value, and the payload.
- `Messages`: the message fields, the module's two settings, the rendering services WireMail supplies, the from rule and the sender identity.
- `Transport`: the service cache, and resolution with its error and log reporting.
- `Dispatch`: `sendGmailTo` and `___send`, with the Gmail API as an oracle of per-recipient replies.

External calls appear in the model as parameters:

- The Google client library is a `Provider`. For each of the three steps of resolution it says whether the step returns a value, returns null, or throws an `\Exception` (a `WireException` or one of the Google library's exceptions) with a message.
- `users_messages->send` answers each recipient with a `Reply`: it returns a message, returns null, or throws an `\Exception`.
- The calls the model records (`TransportCall`) are what the module hands to that API: the user id and the `raw` payload.
- `isSuperuser()` is a boolean parameter.
- `error()` and `log()` append to two sequences kept in the `Sender`.

Two behaviours of the code that the model keeps as written:

- **Settings use PHP truthiness.** The code tests the from-address and from-name settings for truthiness (`if` at lines 91-92, `?:` at line 128), so the one-character string `"0"` counts as unset, like `""` (`ByteStrings.Truthy`).
- **A failed resolution is retried.** `getGmailService` stores the service only on success (line 69), so a later call asks the client library again (`Transport.ResolveRetriesAfterFailure`). Within one `___send`, a failed resolution still returns 0 before any recipient is tried.

## Model

| member | source | states |
|---|---|---|
| Transport.NewSender | WireMailGmail.module.php:36-46 | A newly constructed sender has both settings equal to `""`, no cached service, and has emitted no errors and no log entries. |
| Transport.NewSenderDefaults | WireMailGmail.module.php:43-44 | With the settings as constructed, mail goes out as `"me"` and the from step leaves every message unchanged. |
| Transport.Acquire | WireMailGmail.module.php:58-68 | Resolution succeeds exactly when the module lookup, the client and the service constructor all return a value; it then yields the constructed service. A null result at any step fails with that step's fixed message. A step that throws fails with that exception's message, and the later steps are not consulted. |
| Transport.Resolve | WireMailGmail.module.php:54-79 | A cached service is returned and nothing changes. Otherwise a success is cached and returned. A failure leaves the cache empty, returns nothing, and appends exactly one error and one identical log entry, each the class name, `": "` and the failure message. The settings never change. |
| Transport.ResolveMemoised | WireMailGmail.module.php:56-69 | After one successful resolution, every later resolution returns the same service and changes nothing, whatever the client library would now answer. |
| Transport.ResolveFailureReported | WireMailGmail.module.php:71-76 | A failed resolution grows the error list and the log by exactly one entry each, keeps everything before it, and both new entries start with `WireMailGmail: `. |
| Transport.ResolveRetriesAfterFailure | WireMailGmail.module.php:56-78 | A failure is not memoised: the next resolution asks the client library again and succeeds when it can. |
| Messages.ApplyFrom | WireMailGmail.module.php:91-92 | A truthy configured address always replaces the from address. The from name changes only when a truthy name is configured and the message has no truthy from name, and then becomes that name. No other field of the message changes. |
| Messages.ApplyFromIdempotent | WireMailGmail.module.php:91-92 | Applying the from rule twice gives the same message as applying it once. |
| Messages.SenderIdentity | WireMailGmail.module.php:128 | The API user id is the configured address exactly when that address is truthy, and `"me"` otherwise. |
| MessageEncoder.AddressField | WireMailGmail.module.php:123-124 | The `To:` value is the bare address when the recipient has no recorded name or a falsy one. With a truthy name it is WireMail's bundled name-and-address form. |
| MessageEncoder.ParseRaw | WireMailGmail.module.php:126 | Splitting the raw message at its first empty line and reading its first two lines recovers exactly the recipient, the subject, the header block and the body. This holds when the two field values contain no line break and the header block contains no empty line. |
| MessageEncoder.FoldedSubjectNotParsed | WireMailGmail.module.php:98-126 | A subject containing a line break, as `encodeSubject` produces when it folds a long subject, is never read back whole from the raw message: the reader takes only its first line. |
| Base64.EncodeUrl | WireMailGmail.module.php:127 | The payload equals the unpadded standard encoding with `+` and `/` replaced by `-` and `_`. Every character is in the URL-safe alphabet, no `=` remains, and its length is ⌈4n/3⌉ for n octets. |
| Base64.DecodeEncodeStd | WireMailGmail.module.php:127 | Strict RFC 4648 decoding inverts `base64_encode` on every byte string. |
| Base64.UrlRoundTrip | WireMailGmail.module.php:127 | Undoing the alphabet substitution, re-adding `=` to a multiple of four, and decoding gives back the original bytes. |
| MessageEncoder.PayloadAlphabet | WireMailGmail.module.php:123-127 | Every per-recipient payload is unpadded URL-safe text with no `=`, as long as the unpadded encoding of its raw message. |
| MessageEncoder.PayloadDecodes | WireMailGmail.module.php:123-127 | Decoding a recipient's payload always gives its raw message. When the `To:` value and subject contain no CR or LF and the header block contains no empty line, that message parses into that recipient's `To:` value, the subject, the header block and the body. |
| Dispatch.FaultNotice | WireMailGmail.module.php:140 | The error shown for a fault is JSON-decoded exactly when its text starts with `{`; otherwise it is the text itself. |
| Dispatch.SendTo | WireMailGmail.module.php:118-146 | One call reaches the transport, carrying the sender identity and that recipient's payload. The result is true exactly when the transport returned a message. A fault (a caught `\Exception`) adds its message to the log and, only for a superuser, one error; it does not escape. |
| Dispatch.SendToAll | WireMailGmail.module.php:99-105 | There is one transport call per recipient, in list order. The count is the number of acceptances. The sender ends up as if each reply had been reported in turn. |
| Dispatch.Send | WireMailGmail.module.php:87-106 | A failed resolution returns 0, makes no call, leaves the message untouched, and keeps only the resolution's one error and log entry. Otherwise the from rule is applied and header, body and subject are rendered once. The i-th call then carries the i-th recipient's payload. The count is the number of acceptances, at most the number of recipients. The log gains every fault's message in order, and the error list gains the faults' notices only for a superuser. |
| Dispatch.CallsForIndex | WireMailGmail.module.php:101-102 | The k-th transport call of the loop is the one built for the k-th recipient. |
| Dispatch.ReportAllSummary | WireMailGmail.module.php:136-142 | Handling the replies in order appends to the log each fault's message and to the errors each fault's notice (superuser only), leaving earlier entries in place. |
| Dispatch.CountAcceptedIsCardinality | WireMailGmail.module.php:99-105 | The returned count equals the number of recipient positions whose reply was an acceptance. |
| Dispatch.CountAcceptedAll | WireMailGmail.module.php:99-105 | The count equals the number of recipients exactly when every recipient was accepted. |
| Dispatch.CountAcceptedNone | WireMailGmail.module.php:84-105 | The count is 0 exactly when no recipient was accepted. |
| Dispatch.CountAcceptedIsolation | WireMailGmail.module.php:101-103 | Changing one recipient's reply changes the count by that recipient's own contribution only, so one recipient's fault never affects another's result. |
| Dispatch.RepliesAccounted | WireMailGmail.module.php:130-145 | Acceptances plus logged faults never exceed the number of recipients, and equal it exactly when no call returned null. |
| Dispatch.FaultErrorsByPrivilege | WireMailGmail.module.php:138-142 | A non-superuser is shown no error at all. A superuser is shown one error per logged fault. |

## Left out

- The module's configuration form (`getModuleConfigInputfields`): it only renders settings fields.
- The Google client library and the Gmail API: these are oracles. A `Provider` answers the three resolution steps, and a sequence of `Reply` values, one per recipient, answers `users_messages->send`. No network traffic is modelled.
- WireMail's own methods are parameters with no modelled behaviour:
  - `renderMailHeader`, `renderMailBody`, `encodeSubject` and `bundleEmailAndName` are the function fields of `Renderer`;
  - `multipartBoundary(true)` (line 95) is not modelled as a step; whatever boundary it sets is part of the header and body the `Renderer` passed to each `Send` produces;
  - `from()` and `fromName()` are plain field assignments; WireMail's address sanitising is not modelled.
- `json_decode`: only the test that picks it (text starting with `{`) is modelled. The decoded structure, and the null it yields for invalid JSON, are not.
- ProcessWire's loading of the saved settings into the module after construction is not modelled: `Send` accepts a sender with any settings.
- A PHP `Throwable` that is not an `\Exception` (an `\Error` such as a `TypeError` inside the Google library) passes through both `catch(\Exception $e)` blocks (lines 71 and 136). It ends `___send` by propagating: no count is returned and the later recipients are not tried. This path is not modelled, so the per-recipient isolation the model proves covers caught exceptions only.
- The hook machinery behind the `___send` name, and `wire()` service lookup, are not modelled.
- Transport.Acquire: the null check after `new \Google_Service_Gmail($client)` cannot fire in PHP, because `new` never yields null. The model keeps the branch as the code writes it, with a `Provider` that may answer null there.
- Dispatch.SendTo: requires a cached service, since `___send` only reaches `sendGmailTo` after a successful resolution. Calling `sendGmailTo` on its own without a service would raise a PHP `Error`, which the `catch(\Exception $e)` does not catch; that path is not modelled.
- MessageEncoder.ParseRaw: the parser is the reader's side, not part of the module. The round trip is stated only for recipient and subject values without CR or LF and for a header block without an empty line. A subject that `encodeSubject` folds onto continuation lines (CRLF followed by a space, section 2.2.3 of RFC 5322) falls outside it, because the parser reads only the first subject line (`MessageEncoder.FoldedSubjectNotParsed`).
- MessageEncoder.PayloadDecodes: the decoding half holds for every input; the parsing half carries the same conditions as `ParseRaw`, so a folded subject falls outside it too.
- The model has no integer width: the counts are unbounded naturals, and PHP's `int` cannot overflow on any realistic number of recipients.

=== FILE: base64.dfy ===
/**
 * Base 64 encoding as RFC 4648 defines it: the standard alphabet and `=`
 * padding of section 4, the URL- and filename-safe alphabet of section 5,
 * and padding left out as section 3.2 permits.  The sender produces its
 * payload as PHP's `rtrim(strtr(base64_encode($data), '+/', '-_'), '=')`,
 * and `EncodeUrl` is that composition, step by step.
 */
module Base64 {
  import opened Wrappers
  import opened ByteStrings

  /** A 6-bit group, the value one base 64 character stands for. */
  type sextet = x: int | 0 <= x < 64

  const PAD: char := '='

  /** The character for a 6-bit value (Table 1 of RFC 4648). */
  function StdChar(i: sextet): char {
    if i < 26 then ('A' as int + i) as char
    else if i < 52 then ('a' as int + (i - 26)) as char
    else if i < 62 then ('0' as int + (i - 52)) as char
    else if i == 62 then '+'
    else '/'
  }

  predicate IsStdChar(c: char) {
    ('A' <= c <= 'Z') || ('a' <= c <= 'z') || ('0' <= c <= '9') || c == '+' || c == '/'
  }

  /** A character of the URL- and filename-safe alphabet (Table 2 of RFC 4648). */
  predicate IsUrlChar(c: char) {
    ('A' <= c <= 'Z') || ('a' <= c <= 'z') || ('0' <= c <= '9') || c == '-' || c == '_'
  }

  /** The value a character of the standard alphabet stands for. */
  function StdValue(c: char): (i: sextet)
    requires IsStdChar(c)
    ensures StdChar(i) == c
  {
    if 'A' <= c <= 'Z' then c as int - 'A' as int
    else if 'a' <= c <= 'z' then c as int - 'a' as int + 26
    else if '0' <= c <= '9' then c as int - '0' as int + 52
    else if c == '+' then 62
    else 63
  }

  /** The alphabet is a bijection between 6-bit values and its 64 characters. */
  lemma StdValueOfChar(i: sextet)
    ensures IsStdChar(StdChar(i)) && StdValue(StdChar(i)) == i
  {
  }

  /** The four characters for three octets: the 24 bits cut into four 6-bit groups. */
  function Quantum(x: byte, y: byte, z: byte): (q: string)
    ensures |q| == 4
    ensures forall i | 0 <= i < 4 :: IsStdChar(q[i])
  {
    StdValueOfChar(x / 4);
    StdValueOfChar(x % 4 * 16 + y / 16);
    StdValueOfChar(y % 16 * 4 + z / 64);
    StdValueOfChar(z % 64);
    [StdChar(x / 4), StdChar(x % 4 * 16 + y / 16), StdChar(y % 16 * 4 + z / 64), StdChar(z % 64)]
  }

  /**
   * The encoding characters without padding: a final group of one or two
   * octets is completed with zero bits and output as two or three characters
   * (section 4 of RFC 4648).
   */
  function Unpadded(b: Bytes): (s: string)
    ensures |s| == (4 * |b| + 2) / 3
    ensures forall i | 0 <= i < |s| :: IsStdChar(s[i])
    decreases |b|
  {
    if |b| == 0 then []
    else if |b| == 1 then Quantum(b[0], 0, 0)[..2]
    else if |b| == 2 then Quantum(b[0], b[1], 0)[..3]
    else Quantum(b[0], b[1], b[2]) + Unpadded(b[3..])
  }

  /** Number of `=` that close the standard encoding of `n` octets. */
  function PadLength(n: nat): (k: nat)
    ensures k < 3
  {
    (3 - n % 3) % 3
  }

  /** `k` padding characters. */
  function Pads(k: nat): (p: string)
    ensures |p| == k
    ensures forall i | 0 <= i < k :: p[i] == PAD
  {
    seq(k, _ => PAD)
  }

  /** Standard base 64 with padding (section 4 of RFC 4648), PHP's `base64_encode`. */
  function EncodeStd(b: Bytes): (s: string)
    ensures |s| == 4 * ((|b| + 2) / 3)
  {
    Unpadded(b) + Pads(PadLength(|b|))
  }

  /** Three octets from a full quantum of four alphabet characters. */
  function DecodeQuantum(c0: char, c1: char, c2: char, c3: char): Option<Bytes> {
    if IsStdChar(c0) && IsStdChar(c1) && IsStdChar(c2) && IsStdChar(c3) then
      var i0, i1, i2, i3 := StdValue(c0), StdValue(c1), StdValue(c2), StdValue(c3);
      Some([i0 * 4 + i1 / 16, i1 % 16 * 16 + i2 / 4, i2 % 4 * 64 + i3])
    else None
  }

  /** The last quantum, which may end in one or two `=` (section 4 of RFC 4648, cases 2 and 3). */
  function DecodeFinal(c0: char, c1: char, c2: char, c3: char): Option<Bytes> {
    if c2 == PAD && c3 == PAD then
      if IsStdChar(c0) && IsStdChar(c1) then
        Some([StdValue(c0) * 4 + StdValue(c1) / 16])
      else None
    else if c3 == PAD then
      if IsStdChar(c0) && IsStdChar(c1) && IsStdChar(c2) then
        var i0, i1, i2 := StdValue(c0), StdValue(c1), StdValue(c2);
        Some([i0 * 4 + i1 / 16, i1 % 16 * 16 + i2 / 4])
      else None
    else DecodeQuantum(c0, c1, c2, c3)
  }

  /**
   * Standard base 64 decoding: the length must be a multiple of four, every
   * character must be in the alphabet, and `=` may only close the last quantum.
   */
  function DecodeStd(s: string): Option<Bytes>
    decreases |s|
  {
    if |s| == 0 then Some([])
    else if |s| < 4 then None
    else if |s| == 4 then DecodeFinal(s[0], s[1], s[2], s[3])
    else
      match DecodeQuantum(s[0], s[1], s[2], s[3])
      case None => None
      case Some(q) =>
        match DecodeStd(s[4..])
        case None => None
        case Some(rest) => Some(q + rest)
  }

  /** The arithmetic of one quantum: splitting three octets into sextets and joining them back. */
  lemma QuantumArithmetic(x: byte, y: byte, z: byte)
    ensures (x / 4) * 4 + (x % 4 * 16 + y / 16) / 16 == x
    ensures (x % 4 * 16 + y / 16) % 16 * 16 + (y % 16 * 4 + z / 64) / 4 == y
    ensures (y % 16 * 4 + z / 64) % 4 * 64 + z % 64 == z
  {
  }

  /** A full quantum decodes to its three octets. */
  lemma DecodeQuantumOf(x: byte, y: byte, z: byte)
    ensures var q := Quantum(x, y, z);
      DecodeQuantum(q[0], q[1], q[2], q[3]) == Some([x, y, z])
      && DecodeFinal(q[0], q[1], q[2], q[3]) == Some([x, y, z])
  {
    QuantumArithmetic(x, y, z);
    StdValueOfChar(x / 4);
    StdValueOfChar(x % 4 * 16 + y / 16);
    StdValueOfChar(y % 16 * 4 + z / 64);
    StdValueOfChar(z % 64);
  }

  /** A final quantum of two characters and `==` decodes to its one octet. */
  lemma DecodeFinalOne(x: byte)
    ensures var q := Quantum(x, 0, 0);
      DecodeFinal(q[0], q[1], PAD, PAD) == Some([x])
  {
    QuantumArithmetic(x, 0, 0);
    StdValueOfChar(x / 4);
    StdValueOfChar(x % 4 * 16);
  }

  /** A final quantum of three characters and `=` decodes to its two octets. */
  lemma DecodeFinalTwo(x: byte, y: byte)
    ensures var q := Quantum(x, y, 0);
      DecodeFinal(q[0], q[1], q[2], PAD) == Some([x, y])
  {
    QuantumArithmetic(x, y, 0);
    StdValueOfChar(x / 4);
    StdValueOfChar(x % 4 * 16 + y / 16);
    StdValueOfChar(y % 16 * 4);
  }

  /** The encoding of one octet is a final quantum ending in `==`, which decodes back. */
  lemma DecodeEncodeOne(b: Bytes)
    requires |b| == 1
    ensures DecodeStd(EncodeStd(b)) == Some(b)
  {
    var s := EncodeStd(b);
    var q := Quantum(b[0], 0, 0);
    DecodeFinalOne(b[0]);
    assert s == q[..2] + [PAD, PAD];
    assert s[0] == q[0] && s[1] == q[1] && s[2] == PAD && s[3] == PAD;
    assert b == [b[0]];
  }

  /** The encoding of two octets is a final quantum ending in `=`, which decodes back. */
  lemma DecodeEncodeTwo(b: Bytes)
    requires |b| == 2
    ensures DecodeStd(EncodeStd(b)) == Some(b)
  {
    var s := EncodeStd(b);
    var q := Quantum(b[0], b[1], 0);
    DecodeFinalTwo(b[0], b[1]);
    assert s == q[..3] + [PAD];
    assert s[0] == q[0] && s[1] == q[1] && s[2] == q[2] && s[3] == PAD;
    assert b == [b[0], b[1]];
  }

  /** The standard encoding of three or more octets is a full quantum followed by the encoding of the rest. */
  lemma EncodeStdStep(b: Bytes)
    requires |b| >= 3
    ensures EncodeStd(b) == Quantum(b[0], b[1], b[2]) + EncodeStd(b[3..])
  {
    assert PadLength(|b|) == PadLength(|b[3..]|);
  }

  /** Decoding undoes standard encoding. */
  lemma {:induction false} DecodeEncodeStd(b: Bytes)
    ensures DecodeStd(EncodeStd(b)) == Some(b)
    decreases |b|
  {
    if |b| == 1 {
      DecodeEncodeOne(b);
    } else if |b| == 2 {
      DecodeEncodeTwo(b);
    } else if |b| >= 3 {
      var s := EncodeStd(b);
      var q := Quantum(b[0], b[1], b[2]);
      var t := EncodeStd(b[3..]);
      EncodeStdStep(b);
      DecodeQuantumOf(b[0], b[1], b[2]);
      assert s[..4] == q && s[4..] == t;
      assert s[0] == q[0] && s[1] == q[1] && s[2] == q[2] && s[3] == q[3];
      assert b == [b[0], b[1], b[2]] + b[3..];
      if |b| == 3 {
        assert t == [] && s == q;
        assert DecodeStd(s) == DecodeFinal(q[0], q[1], q[2], q[3]);
        assert b == [b[0], b[1], b[2]];
      } else {
        DecodeEncodeStd(b[3..]);
        assert |t| > 0 && |s| > 4;
        assert DecodeStd(s) == Some([b[0], b[1], b[2]] + b[3..]);
      }
    }
  }

  /** `strtr($s, '+/', '-_')` on one character. */
  function UrlChar(c: char): char {
    if c == '+' then '-' else if c == '/' then '_' else c
  }

  /** The substitution back to the standard alphabet: `-` to `+` and `_` to `/`. */
  function StdCharOfUrl(c: char): char {
    if c == '-' then '+' else if c == '_' then '/' else c
  }

  /** `strtr($s, '+/', '-_')`: the alphabet of RFC 4648 section 5 in place of that of RFC 4648 section 4. */
  function ToUrlSafe(s: string): (r: string)
    ensures |r| == |s|
    ensures forall i | 0 <= i < |s| :: IsStdChar(s[i]) ==> IsUrlChar(r[i])
    ensures forall i | 0 <= i < |s| :: r[i] == PAD <==> s[i] == PAD
  {
    seq(|s|, i requires 0 <= i < |s| => UrlChar(s[i]))
  }

  /** The inverse substitution, applied before standard decoding. */
  function FromUrlSafe(s: string): (r: string)
    ensures |r| == |s|
    ensures forall i | 0 <= i < |s| :: IsUrlChar(s[i]) ==> IsStdChar(r[i])
  {
    seq(|s|, i requires 0 <= i < |s| => StdCharOfUrl(s[i]))
  }

  /** Undoing the substitution on text written in the standard alphabet gives the text back. */
  lemma FromUrlSafeUndoes(s: string)
    requires forall i | 0 <= i < |s| :: IsStdChar(s[i])
    ensures FromUrlSafe(ToUrlSafe(s)) == s
  {
  }

  /** `rtrim($s, '=')`: the longest prefix of `s` that does not end in `=`. */
  function TrimPadding(s: string): (r: string)
    ensures |r| <= |s| && r == s[..|r|]
    ensures |r| == 0 || r[|r| - 1] != PAD
    ensures forall i | |r| <= i < |s| :: s[i] == PAD
    decreases |s|
  {
    if |s| > 0 && s[|s| - 1] == PAD then TrimPadding(s[..|s| - 1]) else s
  }

  /** Adds `=` until the length is a multiple of four. */
  function Repad(s: string): (r: string)
    ensures |s| <= |r| && |r| % 4 == 0 && r[..|s|] == s
    ensures forall i | |s| <= i < |r| :: r[i] == PAD
    ensures |r| < |s| + 4
  {
    s + Pads((4 - |s| % 4) % 4)
  }

  /** Trimming `=` from text that ends in a non-pad character followed by pads leaves that text. */
  lemma TrimPaddingOf(s: string, k: nat)
    requires |s| == 0 || s[|s| - 1] != PAD
    ensures TrimPadding(s + Pads(k)) == s
  {
    var t := s + Pads(k);
    var r := TrimPadding(t);
    assert r == t[..|s|] == s;
  }

  /** The payload encoding: `rtrim(strtr(base64_encode($data), '+/', '-_'), '=')`. */
  function EncodeUrl(b: Bytes): (s: string)
    ensures s == ToUrlSafe(Unpadded(b))
    ensures forall i | 0 <= i < |s| :: IsUrlChar(s[i])
    ensures PAD !in s
    ensures |s| == (4 * |b| + 2) / 3
  {
    var u := Unpadded(b);
    assert ToUrlSafe(EncodeStd(b)) == ToUrlSafe(u) + Pads(PadLength(|b|));
    TrimPaddingOf(ToUrlSafe(u), PadLength(|b|));
    TrimPadding(ToUrlSafe(EncodeStd(b)))
  }

  /** Re-padding the unpadded encoding of `n` octets adds exactly the `=` that standard encoding has. */
  lemma RepadLength(n: nat)
    ensures (4 - (4 * n + 2) / 3 % 4) % 4 == PadLength(n)
  {
    var k, r := n / 3, n % 3;
    assert 4 * n + 2 == 3 * (4 * k) + (4 * r + 2);
    assert (4 * n + 2) / 3 == 4 * k + (4 * r + 2) / 3;
    assert (4 * n + 2) / 3 % 4 == (4 * r + 2) / 3;
  }

  /**
   * The round trip of the payload: substituting `-` and `_` back, re-adding
   * `=` up to a multiple of four and decoding gives back the original octets.
   */
  lemma UrlRoundTrip(b: Bytes)
    ensures DecodeStd(Repad(FromUrlSafe(EncodeUrl(b)))) == Some(b)
  {
    var u := Unpadded(b);
    FromUrlSafeUndoes(u);
    RepadLength(|b|);
    assert Repad(u) == EncodeStd(b);
    DecodeEncodeStd(b);
  }
}

=== FILE: bytestrings.dfy ===
/** PHP strings as byte sequences, and the few string primitives the sender relies on. */
module ByteStrings {
  import opened Wrappers

  /** One octet of a PHP string. */
  type byte = x: int | 0 <= x < 256

  /** A PHP string: a sequence of octets with no encoding attached. */
  type Bytes = seq<byte>

  const CR: byte := 13
  const LF: byte := 10
  const CRLF: Bytes := [CR, LF]

  /** True when every character of a literal is 7-bit ASCII. */
  predicate IsAscii(s: string) {
    forall i | 0 <= i < |s| :: s[i] as int < 128
  }

  /** The octets of an ASCII literal, one per character. */
  function Ascii(s: string): (r: Bytes)
    requires IsAscii(s)
    ensures |r| == |s|
    ensures forall i | 0 <= i < |s| :: r[i] == s[i] as int
  {
    seq(|s|, i requires 0 <= i < |s| => s[i] as int)
  }

  /** PHP's conversion of a string to bool: exactly "" and "0" are false. */
  predicate Truthy(s: Bytes) {
    s != [] && s != [0x30]
  }

  /** True when `s` starts with `prefix`. */
  predicate StartsWith(s: Bytes, prefix: Bytes) {
    |prefix| <= |s| && s[..|prefix|] == prefix
  }

  /** True when `pat` occurs in `s` at position `k`. */
  predicate OccursAt(s: Bytes, pat: Bytes, k: nat) {
    k + |pat| <= |s| && s[k..k + |pat|] == pat
  }

  /** The first position at or after `from` where `pat` occurs in `s`; the reader uses it to find line ends. */
  function Find(s: Bytes, pat: Bytes, from: nat): (r: Option<nat>)
    ensures r.Some? ==> from <= r.value && OccursAt(s, pat, r.value)
    ensures r.Some? ==> forall j | from <= j < r.value :: !OccursAt(s, pat, j)
    ensures r.None? ==> forall j: nat | from <= j :: !OccursAt(s, pat, j)
    decreases |s| - from
  {
    if |s| < from + |pat| then None
    else if OccursAt(s, pat, from) then Some(from)
    else Find(s, pat, from + 1)
  }

  /** When `pat` occurs at `k` and nowhere in `[from, k)`, `Find` reports `k`. */
  lemma FindFirst(s: Bytes, pat: Bytes, from: nat, k: nat)
    requires from <= k && OccursAt(s, pat, k)
    requires forall j | from <= j < k :: !OccursAt(s, pat, j)
    ensures Find(s, pat, from) == Some(k)
  {
  }

  lemma AppendAssociative<T>(a: seq<T>, b: seq<T>, c: seq<T>)
    ensures (a + b) + c == a + (b + c)
  {
  }

  /** A header field body that stays on one line: no CR and no LF octet. */
  predicate SingleLine(s: Bytes) {
    forall i | 0 <= i < |s| :: s[i] != CR && s[i] != LF
  }

  lemma SingleLineConcat(a: Bytes, b: Bytes)
    requires SingleLine(a) && SingleLine(b)
    ensures SingleLine(a + b)
  {
    forall i | 0 <= i < |a + b|
      ensures (a + b)[i] != CR && (a + b)[i] != LF
    {
      if i < |a| {
        assert (a + b)[i] == a[i];
      } else {
        assert (a + b)[i] == b[i - |a|];
      }
    }
  }

  /** A pattern that starts with CR cannot occur inside a single-line prefix. */
  lemma NoCROccurrenceIn(a: Bytes, b: Bytes, pat: Bytes)
    requires SingleLine(a)
    requires |pat| > 0 && pat[0] == CR
    ensures forall j | 0 <= j < |a| :: !OccursAt(a + b, pat, j)
  {
    forall j | 0 <= j < |a|
      ensures !OccursAt(a + b, pat, j)
    {
      assert (a + b)[j] == a[j] != CR;
      if j + |pat| <= |a + b| {
        assert (a + b)[j..j + |pat|][0] == (a + b)[j];
      }
    }
  }
}

=== FILE: dispatch.dfy ===
/**
 * Sending one message to every recipient (`WireMailGmail::___send` and
 * `sendGmailTo`).  The Gmail API is an oracle: for the i-th recipient it
 * answers `replies[i]`.  Each recipient's fault is caught and reported on
 * its own, and the result is the number of recipients Gmail accepted.
 */
module Dispatch {
  import opened ByteStrings
  import opened Messages
  import opened MessageEncoder
  import opened Transport

  /** What `users_messages->send` did for one recipient: returned a message, returned null, or threw an `\Exception`. */
  datatype Reply = Accepted | NullResponse | Fault(message: Bytes)

  /** One invocation of `users_messages->send($me, $message)`, with the message's `raw` field. */
  datatype TransportCall = TransportCall(userId: Identity, raw: string)

  const OPEN_BRACE: Bytes := [0x7B]

  /** The notice shown to a superuser for a fault: text that starts with `{` is JSON-decoded first. */
  function FaultNotice(error: Bytes): (n: Notice)
    ensures n.DecodedJson? <==> StartsWith(error, OPEN_BRACE)
    ensures n.Text? ==> n.text == error
    ensures n.DecodedJson? ==> n.json == error
  {
    if StartsWith(error, OPEN_BRACE) then DecodedJson(error) else Text(error)
  }

  /**
   * `sendGmailTo`: builds and encodes the raw message, calls the transport
   * once, and reports success only when the transport returned a message.  A
   * fault adds one log entry and, for a superuser only, one error; nothing
   * escapes.  The caller has already resolved the service.
   */
  method SendTo(s: Sender, p: Provider, m: Mail, to: Bytes, subject: Bytes, header: Bytes, body: Bytes,
                bundle: (Bytes, Bytes) -> Bytes, reply: Reply, superuser: bool)
    returns (sent: bool, s': Sender, call: TransportCall)
    requires s.service.Some?
    ensures call == TransportCall(SenderIdentity(s.config), Payload(m, bundle, to, subject, header, body))
    ensures sent <==> reply.Accepted?
    ensures s' == Report(s, reply, superuser)
  {
    var service := Resolve(s, p);
    s' := service.sender;
    var raw := Payload(m, bundle, to, subject, header, body);
    call := TransportCall(SenderIdentity(s'.config), raw);
    match reply
    case Accepted =>
      sent := true;
    case NullResponse =>
      sent := false;
    case Fault(error) =>
      sent := false;
      s' := s'.(log := s'.log + [error]);
      if superuser {
        s' := s'.(errors := s'.errors + [FaultNotice(error)]);
      }
  }

  /** The log entries one reply leaves: the fault's message, or nothing. */
  function ReplyLog(reply: Reply): (log: seq<Bytes>)
    ensures |log| <= 1
  {
    if reply.Fault? then [reply.message] else []
  }

  /** The errors one reply shows: a fault's notice, and only to a superuser. */
  function ReplyErrors(reply: Reply, superuser: bool): (errors: seq<Notice>)
    ensures |errors| <= 1
  {
    if reply.Fault? && superuser then [FaultNotice(reply.message)] else []
  }

  /** The sender after one reply has been handled: a fault is logged, and shown only to a superuser. */
  function Report(s: Sender, reply: Reply, superuser: bool): (s': Sender)
    ensures s'.service == s.service && s'.config == s.config
    ensures |s'.log| == |s.log| + (if reply.Fault? then 1 else 0) && s'.log[..|s.log|] == s.log
    ensures reply.Fault? ==> s'.log[|s.log|] == reply.message
    ensures |s'.errors| == |s.errors| + (if reply.Fault? && superuser then 1 else 0)
    ensures s'.errors[..|s.errors|] == s.errors
    ensures !superuser || !reply.Fault? ==> s'.errors == s.errors
  {
    s.(log := s.log + ReplyLog(reply), errors := s.errors + ReplyErrors(reply, superuser))
  }

  /** The sender after the replies `rs` have been handled in order. */
  function ReportAll(s: Sender, rs: seq<Reply>, superuser: bool): (s': Sender)
    ensures s'.service == s.service && s'.config == s.config
    decreases |rs|
  {
    if rs == [] then s else Report(ReportAll(s, rs[..|rs| - 1], superuser), rs[|rs| - 1], superuser)
  }

  /** 1 for a reply that counts as sent, 0 otherwise. */
  function Sent(reply: Reply): nat {
    if reply.Accepted? then 1 else 0
  }

  /** How many replies in `rs` are acceptances. */
  function CountAccepted(rs: seq<Reply>): (n: nat)
    ensures n <= |rs|
    decreases |rs|
  {
    if rs == [] then 0 else CountAccepted(rs[..|rs| - 1]) + Sent(rs[|rs| - 1])
  }

  /** The log entries the faults in `rs` leave, in order: each fault's message, verbatim. */
  function FaultLog(rs: seq<Reply>): (log: seq<Bytes>)
    ensures |log| <= |rs|
    decreases |rs|
  {
    if rs == [] then []
    else FaultLog(rs[..|rs| - 1]) + ReplyLog(rs[|rs| - 1])
  }

  /** The errors the faults in `rs` show: one per fault for a superuser, none otherwise. */
  function FaultErrors(rs: seq<Reply>, superuser: bool): (errors: seq<Notice>)
    ensures |errors| <= |rs|
    decreases |rs|
  {
    if rs == [] then []
    else
      FaultErrors(rs[..|rs| - 1], superuser) + ReplyErrors(rs[|rs| - 1], superuser)
  }

  /** The transport calls for recipients `tos`, one each, in order, under one identity and rendering. */
  function CallsFor(id: Identity, m: Mail, bundle: (Bytes, Bytes) -> Bytes, tos: seq<Bytes>,
                    subject: Bytes, header: Bytes, body: Bytes): (calls: seq<TransportCall>)
    ensures |calls| == |tos|
    decreases |tos|
  {
    if tos == [] then []
    else
      CallsFor(id, m, bundle, tos[..|tos| - 1], subject, header, body)
      + [TransportCall(id, Payload(m, bundle, tos[|tos| - 1], subject, header, body))]
  }

  /** The k-th call is the one for the k-th recipient. */
  lemma {:induction false} CallsForIndex(id: Identity, m: Mail, bundle: (Bytes, Bytes) -> Bytes, tos: seq<Bytes>,
                                         subject: Bytes, header: Bytes, body: Bytes, k: nat)
    requires k < |tos|
    ensures CallsFor(id, m, bundle, tos, subject, header, body)[k]
         == TransportCall(id, Payload(m, bundle, tos[k], subject, header, body))
    decreases |tos|
  {
    if k < |tos| - 1 {
      CallsForIndex(id, m, bundle, tos[..|tos| - 1], subject, header, body, k);
    }
  }

  /**
   * Handling replies one after another logs every fault's message in order,
   * and shows a superuser one error per fault; the cache and settings stay.
   */
  lemma {:induction false} ReportAllSummary(s: Sender, rs: seq<Reply>, superuser: bool)
    ensures ReportAll(s, rs, superuser).log == s.log + FaultLog(rs)
    ensures ReportAll(s, rs, superuser).errors == s.errors + FaultErrors(rs, superuser)
    decreases |rs|
  {
    if rs != [] {
      var n := |rs| - 1;
      ReportAllSummary(s, rs[..n], superuser);
      AppendAssociative(s.log, FaultLog(rs[..n]), ReplyLog(rs[n]));
      AppendAssociative(s.errors, FaultErrors(rs[..n], superuser), ReplyErrors(rs[n], superuser));
    }
  }

  /** Extending the prefix of handled recipients by one extends each summary by that recipient's part. */
  lemma PrefixStep(s: Sender, id: Identity, m: Mail, bundle: (Bytes, Bytes) -> Bytes, subject: Bytes, header: Bytes,
                   body: Bytes, superuser: bool, replies: seq<Reply>, i: nat)
    requires i < |replies| == |m.to|
    ensures CountAccepted(replies[..i + 1]) == CountAccepted(replies[..i]) + Sent(replies[i])
    ensures ReportAll(s, replies[..i + 1], superuser) == Report(ReportAll(s, replies[..i], superuser), replies[i], superuser)
    ensures CallsFor(id, m, bundle, m.to[..i + 1], subject, header, body)
         == CallsFor(id, m, bundle, m.to[..i], subject, header, body)
            + [TransportCall(id, Payload(m, bundle, m.to[i], subject, header, body))]
  {
    assert replies[..i + 1][..i] == replies[..i];
    assert m.to[..i + 1][..i] == m.to[..i];
  }

  /**
   * The `foreach` over the recipients in `___send`: one `sendGmailTo` per
   * recipient, in list order, whatever the earlier recipients' replies were.
   */
  method SendToAll(s: Sender, p: Provider, m: Mail, subject: Bytes, header: Bytes, body: Bytes,
                   bundle: (Bytes, Bytes) -> Bytes, superuser: bool, replies: seq<Reply>)
    returns (numSent: nat, s': Sender, calls: seq<TransportCall>)
    requires s.service.Some?
    requires |replies| == |m.to|
    ensures numSent == CountAccepted(replies)
    ensures |calls| == |m.to|
    ensures calls == CallsFor(SenderIdentity(s.config), m, bundle, m.to, subject, header, body)
    ensures s' == ReportAll(s, replies, superuser)
  {
    numSent := 0;
    s' := s;
    calls := [];
    var i := 0;
    while i < |m.to|
      invariant 0 <= i <= |m.to|
      invariant numSent == CountAccepted(replies[..i])
      invariant calls == CallsFor(SenderIdentity(s.config), m, bundle, m.to[..i], subject, header, body)
      invariant s' == ReportAll(s, replies[..i], superuser)
    {
      var sent, next, call := SendTo(s', p, m, m.to[i], subject, header, body, bundle, replies[i], superuser);
      if sent {
        numSent := numSent + 1;
      }
      PrefixStep(s, SenderIdentity(s.config), m, bundle, subject, header, body, superuser, replies, i);
      s' := next;
      calls := calls + [call];
      i := i + 1;
    }
    assert replies[..i] == replies;
    assert m.to[..i] == m.to;
  }

  /**
   * `___send`: resolves the service (returning 0 with no further effect when
   * that fails), applies the from step, renders the message once, then sends
   * to every recipient in order and returns how many Gmail accepted.
   */
  method Send(s: Sender, p: Provider, m: Mail, r: Renderer, superuser: bool, replies: seq<Reply>)
    returns (numSent: nat, s': Sender, m': Mail, calls: seq<TransportCall>)
    requires |replies| == |m.to|
    ensures numSent <= |m.to|
    ensures Resolve(s, p).handle.None? ==>
      numSent == 0 && calls == [] && m' == m && s' == Resolve(s, p).sender
    ensures Resolve(s, p).handle.Some? ==>
      && m' == ApplyFrom(s.config, m)
      && numSent == CountAccepted(replies)
      && |calls| == |m.to|
      && (forall i | 0 <= i < |m.to| ::
            calls[i] == TransportCall(SenderIdentity(s.config),
              Payload(m', r.bundle, m.to[i], r.encodeSubject(m'.subject), r.header(m'), r.body(m'))))
      && s'.service == Resolve(s, p).handle
      && s'.config == s.config
      && s'.log == Resolve(s, p).sender.log + FaultLog(replies)
      && s'.errors == Resolve(s, p).sender.errors + FaultErrors(replies, superuser)
  {
    var resolved := Resolve(s, p);
    if resolved.handle.None? {
      return 0, resolved.sender, m, [];
    }
    m' := ApplyFrom(resolved.sender.config, m);
    var header := r.header(m');
    var body := r.body(m');
    var subject := r.encodeSubject(m'.subject);
    numSent, s', calls := SendToAll(resolved.sender, p, m', subject, header, body, r.bundle, superuser, replies);
    ReportAllSummary(resolved.sender, replies, superuser);
    forall i | 0 <= i < |m.to|
      ensures calls[i] == TransportCall(SenderIdentity(s.config),
                Payload(m', r.bundle, m.to[i], r.encodeSubject(m'.subject), r.header(m'), r.body(m')))
    {
      CallsForIndex(SenderIdentity(s.config), m', r.bundle, m'.to, subject, header, body, i);
    }
  }

  /** The count is the number of recipients whose reply was an acceptance. */
  lemma {:induction false} CountAcceptedIsCardinality(rs: seq<Reply>)
    ensures CountAccepted(rs) == |set i | 0 <= i < |rs| && rs[i].Accepted?|
    decreases |rs|
  {
    if rs != [] {
      var n := |rs| - 1;
      var init := rs[..n];
      CountAcceptedIsCardinality(init);
      var before := set i | 0 <= i < n && init[i].Accepted?;
      var all := set i | 0 <= i < |rs| && rs[i].Accepted?;
      if rs[n].Accepted? {
        assert all == before + {n};
      } else {
        assert all == before;
      }
    }
  }

  /** Every recipient was accepted exactly when the count equals the number of recipients. */
  lemma {:induction false} CountAcceptedAll(rs: seq<Reply>)
    ensures CountAccepted(rs) == |rs| <==> forall i | 0 <= i < |rs| :: rs[i].Accepted?
    decreases |rs|
  {
    if rs != [] {
      var n := |rs| - 1;
      CountAcceptedAll(rs[..n]);
      assert forall i | 0 <= i < n :: rs[..n][i] == rs[i];
    }
  }

  /** The count is 0 exactly when no recipient was accepted. */
  lemma {:induction false} CountAcceptedNone(rs: seq<Reply>)
    ensures CountAccepted(rs) == 0 <==> forall i | 0 <= i < |rs| :: !rs[i].Accepted?
    decreases |rs|
  {
    if rs != [] {
      var n := |rs| - 1;
      CountAcceptedNone(rs[..n]);
      assert forall i | 0 <= i < n :: rs[..n][i] == rs[i];
    }
  }

  /**
   * Fault isolation: changing the reply for one recipient changes the count
   * by that recipient's own contribution and nothing else.
   */
  lemma {:induction false} CountAcceptedIsolation(rs: seq<Reply>, j: nat, x: Reply)
    requires j < |rs|
    ensures CountAccepted(rs[j := x]) + Sent(rs[j]) == CountAccepted(rs) + Sent(x)
    decreases |rs|
  {
    var n := |rs| - 1;
    if j < n {
      CountAcceptedIsolation(rs[..n], j, x);
      assert rs[j := x][..n] == rs[..n][j := x];
    } else {
      assert rs[j := x][..n] == rs[..n];
    }
  }

  /**
   * Every reply is accounted for once: acceptances plus logged faults make up
   * all recipients exactly when no call returned null.
   */
  lemma {:induction false} RepliesAccounted(rs: seq<Reply>)
    ensures CountAccepted(rs) + |FaultLog(rs)| <= |rs|
    ensures CountAccepted(rs) + |FaultLog(rs)| == |rs| <==> forall i | 0 <= i < |rs| :: !rs[i].NullResponse?
    decreases |rs|
  {
    if rs != [] {
      var n := |rs| - 1;
      RepliesAccounted(rs[..n]);
      assert forall i | 0 <= i < n :: rs[..n][i] == rs[i];
    }
  }

  /**
   * Privilege decides visibility: a non-superuser is shown no error at all,
   * while a superuser is shown one error per logged fault.
   */
  lemma {:induction false} FaultErrorsByPrivilege(rs: seq<Reply>)
    ensures FaultErrors(rs, false) == []
    ensures |FaultErrors(rs, true)| == |FaultLog(rs)|
    decreases |rs|
  {
    if rs != [] {
      FaultErrorsByPrivilege(rs[..|rs| - 1]);
    }
  }
}

=== FILE: encoder.dfy ===
/**
 * The raw message `sendGmailTo` builds for one recipient, and its payload
 * encoding.  The layout is that of RFC 5322 section 2.1: header lines, each
 * ended by CRLF, then an empty line, then the body.
 */
module MessageEncoder {
  import opened Wrappers
  import opened ByteStrings
  import opened Base64
  import opened Messages

  const TO_FIELD: Bytes := Ascii("To: ")
  const SUBJECT_FIELD: Bytes := Ascii("Subject: ")

  /** The empty line that separates the header section from the body. */
  const BLANK_LINE: Bytes := CRLF + CRLF

  /** `"To: $to\r\nSubject: $subject\r\n$header\r\n\r\n$body"`. */
  function Raw(to: Bytes, subject: Bytes, header: Bytes, body: Bytes): (r: Bytes)
    ensures |r| == |to| + |subject| + |header| + |body| + 21
  {
    TO_FIELD + to + CRLF + SUBJECT_FIELD + subject + CRLF + header + BLANK_LINE + body
  }

  /** The raw message as its header section, the empty line and the body. */
  lemma RawLayout(to: Bytes, subject: Bytes, header: Bytes, body: Bytes)
    ensures Raw(to, subject, header, body)
         == ((TO_FIELD + to) + CRLF + ((SUBJECT_FIELD + subject) + CRLF + header)) + BLANK_LINE + body
  {
  }

  /** The pieces a reader recovers from a raw message. */
  datatype Parts = Parts(to: Bytes, subject: Bytes, header: Bytes, body: Bytes)

  /** Splits `s` at the first occurrence of `sep`, dropping the separator. */
  function SplitAt(s: Bytes, sep: Bytes): (r: Option<(Bytes, Bytes)>)
    ensures r.Some? ==> s == r.value.0 + sep + r.value.1
  {
    match Find(s, sep, 0)
    case None => None
    case Some(k) =>
      assert s == s[..k] + s[k..k + |sep|] + s[k + |sep|..];
      Some((s[..k], s[k + |sep|..]))
  }

  /**
   * Reads a raw message back: the header section ends at the first empty
   * line; its first line must be the `To:` field and its second the
   * `Subject:` field; what follows is the rest of the header block.
   */
  function Parse(raw: Bytes): (r: Option<Parts>)
    ensures r.Some? ==> raw == Raw(r.value.to, r.value.subject, r.value.header, r.value.body)
    ensures r.Some? ==> forall j | 0 <= j < |r.value.subject| :: !OccursAt(r.value.subject, CRLF, j)
  {
    match SplitAt(raw, BLANK_LINE)
    case None => None
    case Some((head, body)) =>
      match SplitAt(head, CRLF)
      case None => None
      case Some((line1, rest)) =>
        match SplitAt(rest, CRLF)
        case None => None
        case Some((line2, header)) =>
          if StartsWith(line1, TO_FIELD) && StartsWith(line2, SUBJECT_FIELD) then
            var to, subject := line1[|TO_FIELD|..], line2[|SUBJECT_FIELD|..];
            assert line1 == TO_FIELD + to;
            assert line2 == SUBJECT_FIELD + subject;
            RawLayout(to, subject, header, body);
            SplitAtFirst(rest, CRLF);
            DropKeepsNoOccurrence(line2, |SUBJECT_FIELD|, CRLF);
            Some(Parts(line1[|TO_FIELD|..], line2[|SUBJECT_FIELD|..], header, body))
          else None
  }

  /** The header block, with the line breaks around it, contains no empty line. */
  predicate NoBlankLine(s: Bytes) {
    forall j | 0 <= j < |s| :: !OccursAt(s, BLANK_LINE, j)
  }

  lemma FieldNamesSingleLine()
    ensures SingleLine(TO_FIELD) && SingleLine(SUBJECT_FIELD)
    ensures SUBJECT_FIELD[0] != CR
  {
  }

  /** A separator that first occurs right after `a` is where `SplitAt` cuts. */
  lemma SplitAtAfter(a: Bytes, sep: Bytes, b: Bytes)
    requires forall j | 0 <= j < |a| :: !OccursAt(a + sep + b, sep, j)
    ensures SplitAt(a + sep + b, sep) == Some((a, b))
  {
    var s := a + sep + b;
    assert s[|a|..|a| + |sep|] == sep;
    FindFirst(s, sep, 0, |a|);
    assert s[..|a|] == a;
    assert s[|a| + |sep|..] == b;
  }

  /** A position where one byte differs from the empty line starts no empty line. */
  lemma NoBlankLineAt(s: Bytes, j: nat, k: nat)
    requires j <= k < j + 4 && k < |s|
    requires s[k] != BLANK_LINE[k - j]
    ensures !OccursAt(s, BLANK_LINE, j)
  {
    assert j + 4 <= |s| ==> s[j..j + 4][k - j] == s[k];
  }

  /** Occurrences in a suffix are occurrences in the whole, shifted. */
  lemma OccursShift(s: Bytes, a: Bytes, b: Bytes, pat: Bytes, j: nat)
    requires s == a + b && |a| <= j
    ensures OccursAt(s, pat, j) <==> OccursAt(b, pat, j - |a|)
  {
    if j + |pat| <= |s| {
      assert s[j..j + |pat|] == b[j - |a|..j - |a| + |pat|];
    }
  }

  /** No empty line starts on a line without line breaks. */
  lemma NoBlankLineInLine(s: Bytes, a: Bytes, b: Bytes, j: nat)
    requires s == a + b && SingleLine(a) && j < |a|
    ensures !OccursAt(s, BLANK_LINE, j)
  {
    assert s[j] == a[j];
    NoBlankLineAt(s, j, j);
  }

  /** No empty line starts at a line break followed by a non-CR byte. */
  lemma NoBlankLineAtBreak(b: Bytes, j: nat)
    requires j < 2 && b != [] && b[0] != CR
    ensures !OccursAt(CRLF + b, BLANK_LINE, j)
  {
    if j == 0 {
      assert (CRLF + b)[2] == b[0];
      NoBlankLineAt(CRLF + b, 0, 2);
    } else {
      assert (CRLF + b)[1] == LF;
      NoBlankLineAt(CRLF + b, 1, 1);
    }
  }

  /**
   * No empty line starts in `x + CRLF + body` before the final line break of
   * `x = CRLF + header + CRLF`, when `x` holds none itself.
   */
  lemma NoBlankLineInBlock(header: Bytes, body: Bytes, i: nat)
    requires NoBlankLine(CRLF + header + CRLF)
    requires i < |header| + 2
    ensures !OccursAt(CRLF + header + CRLF + CRLF + body, BLANK_LINE, i)
  {
    var x := CRLF + header + CRLF;
    var s := x + (CRLF + body);
    assert s == CRLF + header + CRLF + CRLF + body;
    if i + 4 <= |x| {
      assert !OccursAt(x, BLANK_LINE, i);
      assert s[i..i + 4] == x[i..i + 4];
    } else {
      assert s[i + 1] == x[|x| - 2] == CR;
      NoBlankLineAt(s, i, i + 1);
    }
  }

  /** No empty line starts inside the header section of a raw message. */
  lemma HeadHasNoBlankLine(to: Bytes, subject: Bytes, header: Bytes, body: Bytes)
    requires SingleLine(to) && SingleLine(subject)
    requires NoBlankLine(CRLF + header + CRLF)
    ensures var head := TO_FIELD + to + CRLF + SUBJECT_FIELD + subject + CRLF + header;
      forall j | 0 <= j < |head| :: !OccursAt(head + BLANK_LINE + body, BLANK_LINE, j)
  {
    var head := TO_FIELD + to + CRLF + SUBJECT_FIELD + subject + CRLF + header;
    var raw := head + BLANK_LINE + body;
    var q := TO_FIELD + to;
    var r := SUBJECT_FIELD + subject;
    var tail := CRLF + header + CRLF + CRLF + body;
    FieldNamesSingleLine();
    SingleLineConcat(TO_FIELD, to);
    SingleLineConcat(SUBJECT_FIELD, subject);
    assert raw == q + (CRLF + (r + tail));
    assert raw == (q + CRLF) + (r + tail);
    assert raw == (q + CRLF + r) + tail;
    forall j | 0 <= j < |head|
      ensures !OccursAt(raw, BLANK_LINE, j)
    {
      if j < |q| {
        NoBlankLineInLine(raw, q, CRLF + (r + tail), j);
      } else if j < |q| + 2 {
        NoBlankLineAtBreak(r + tail, j - |q|);
        OccursShift(raw, q, CRLF + (r + tail), BLANK_LINE, j);
      } else if j < |q| + 2 + |r| {
        NoBlankLineInLine(r + tail, r, tail, j - |q| - 2);
        OccursShift(raw, q + CRLF, r + tail, BLANK_LINE, j);
      } else {
        NoBlankLineInBlock(header, body, j - |q| - 2 - |r|);
        OccursShift(raw, q + CRLF + r, tail, BLANK_LINE, j);
      }
    }
  }

  /**
   * Splitting a raw message at its first empty line and reading its first two
   * lines gives back exactly the recipient field, the subject, the header
   * block and the body, provided the two field values stay on one line and the
   * header block holds no empty line.
   */
  lemma ParseRaw(to: Bytes, subject: Bytes, header: Bytes, body: Bytes)
    requires SingleLine(to) && SingleLine(subject)
    requires NoBlankLine(CRLF + header + CRLF)
    ensures Parse(Raw(to, subject, header, body)) == Some(Parts(to, subject, header, body))
  {
    var rest := SUBJECT_FIELD + subject + CRLF + header;
    var head := TO_FIELD + to + CRLF + rest;
    SplitHead(to, subject, header, body);
    SplitFieldLines(to, subject, header);
    assert (TO_FIELD + to)[..|TO_FIELD|] == TO_FIELD && (TO_FIELD + to)[|TO_FIELD|..] == to;
    assert (SUBJECT_FIELD + subject)[..|SUBJECT_FIELD|] == SUBJECT_FIELD;
    assert (SUBJECT_FIELD + subject)[|SUBJECT_FIELD|..] == subject;
  }

  /** A raw message splits at its first empty line into header section and body. */
  lemma SplitHead(to: Bytes, subject: Bytes, header: Bytes, body: Bytes)
    requires SingleLine(to) && SingleLine(subject)
    requires NoBlankLine(CRLF + header + CRLF)
    ensures SplitAt(Raw(to, subject, header, body), BLANK_LINE)
         == Some((TO_FIELD + to + CRLF + (SUBJECT_FIELD + subject + CRLF + header), body))
  {
    var head := TO_FIELD + to + CRLF + (SUBJECT_FIELD + subject + CRLF + header);
    assert Raw(to, subject, header, body) == head + BLANK_LINE + body;
    HeadHasNoBlankLine(to, subject, header, body);
    SplitAtAfter(head, BLANK_LINE, body);
  }

  /** The header section splits into the `To:` line, the `Subject:` line and the rest. */
  lemma SplitFieldLines(to: Bytes, subject: Bytes, header: Bytes)
    requires SingleLine(to) && SingleLine(subject)
    ensures var rest := SUBJECT_FIELD + subject + CRLF + header;
      && SplitAt(TO_FIELD + to + CRLF + rest, CRLF) == Some((TO_FIELD + to, rest))
      && SplitAt(rest, CRLF) == Some((SUBJECT_FIELD + subject, header))
  {
    var rest := SUBJECT_FIELD + subject + CRLF + header;
    FieldNamesSingleLine();
    SingleLineConcat(TO_FIELD, to);
    SingleLineConcat(SUBJECT_FIELD, subject);
    NoCROccurrenceIn(TO_FIELD + to, CRLF + rest, CRLF);
    SplitAtAfter(TO_FIELD + to, CRLF, rest);
    NoCROccurrenceIn(SUBJECT_FIELD + subject, CRLF + header, CRLF);
    SplitAtAfter(SUBJECT_FIELD + subject, CRLF, header);
  }

  /** The part before the cut holds no complete occurrence of the separator. */
  lemma SplitAtFirst(s: Bytes, sep: Bytes)
    requires SplitAt(s, sep).Some?
    ensures var a := SplitAt(s, sep).value.0;
      forall j | 0 <= j < |a| :: !OccursAt(a, sep, j)
  {
    var k := Find(s, sep, 0).value;
    var a := SplitAt(s, sep).value.0;
    assert a == s[..k];
    forall j | 0 <= j < |a|
      ensures !OccursAt(a, sep, j)
    {
      assert !OccursAt(s, sep, j);
      if j + |sep| <= |a| {
        assert a[j..j + |sep|] == s[..k][j..j + |sep|] == s[j..j + |sep|];
      }
    }
  }

  /** Dropping a prefix keeps a sequence free of occurrences of `pat`. */
  lemma DropKeepsNoOccurrence(a: Bytes, n: nat, pat: Bytes)
    requires n <= |a|
    requires forall j | 0 <= j < |a| :: !OccursAt(a, pat, j)
    ensures forall j | 0 <= j < |a[n..]| :: !OccursAt(a[n..], pat, j)
  {
    forall j | 0 <= j < |a[n..]|
      ensures !OccursAt(a[n..], pat, j)
    {
      assert !OccursAt(a, pat, n + j);
      if j + |pat| <= |a[n..]| {
        assert a[n..][j..j + |pat|] == a[n + j..n + j + |pat|];
      }
    }
  }

  /**
   * A subject folded onto a continuation line (CRLF then a space, as a MIME
   * header encoder folds a long subject) is never read back whole: the
   * parser takes only its first line as the subject.
   */
  lemma FoldedSubjectNotParsed(to: Bytes, subject: Bytes, header: Bytes, body: Bytes, j: nat)
    requires OccursAt(subject, CRLF, j)
    ensures Parse(Raw(to, subject, header, body)) != Some(Parts(to, subject, header, body))
  {
  }

  /**
   * The `To:` value for one recipient: the bare address unless a truthy
   * display name is recorded for it, in which case WireMail's bundled
   * name-and-address form.
   */
  function AddressField(m: Mail, bundle: (Bytes, Bytes) -> Bytes, to: Bytes): (t: Bytes)
    ensures to !in m.toName ==> t == to
    ensures to in m.toName && !Truthy(m.toName[to]) ==> t == to
    ensures to in m.toName && Truthy(m.toName[to]) ==> t == bundle(to, m.toName[to])
  {
    var toName := if to in m.toName then m.toName[to] else [];
    if Truthy(toName) then bundle(to, toName) else to
  }

  /**
   * The `raw` payload `sendGmailTo` sends to one recipient, from the subject,
   * header and body rendered once for all recipients.
   */
  function Payload(m: Mail, bundle: (Bytes, Bytes) -> Bytes, to: Bytes, subject: Bytes, header: Bytes, body: Bytes): string
  {
    EncodeUrl(Raw(AddressField(m, bundle, to), subject, header, body))
  }

  /**
   * Every payload is unpadded text over the URL- and filename-safe alphabet,
   * as long as the unpadded base 64 form of its raw message.
   */
  lemma PayloadAlphabet(m: Mail, bundle: (Bytes, Bytes) -> Bytes, to: Bytes, subject: Bytes, header: Bytes, body: Bytes)
    ensures var s := Payload(m, bundle, to, subject, header, body);
      && (forall i | 0 <= i < |s| :: IsUrlChar(s[i]))
      && PAD !in s
      && |s| == (4 * |Raw(AddressField(m, bundle, to), subject, header, body)| + 2) / 3
  {
  }

  /**
   * What the provider reads back from a payload: undoing the URL-safe
   * alphabet, re-padding and decoding always yields the raw message; when
   * the `To:` value and subject stay on one line and the header block holds
   * no empty line, its header section parses into the recipient field,
   * subject, header block and body.
   */
  lemma PayloadDecodes(m: Mail, bundle: (Bytes, Bytes) -> Bytes, to: Bytes, subject: Bytes, header: Bytes, body: Bytes)
    ensures var raw := Raw(AddressField(m, bundle, to), subject, header, body);
      && DecodeStd(Repad(FromUrlSafe(Payload(m, bundle, to, subject, header, body)))) == Some(raw)
      && (SingleLine(AddressField(m, bundle, to)) && SingleLine(subject) && NoBlankLine(CRLF + header + CRLF) ==>
            Parse(raw) == Some(Parts(AddressField(m, bundle, to), subject, header, body)))
  {
    var t := AddressField(m, bundle, to);
    UrlRoundTrip(Raw(t, subject, header, body));
    if SingleLine(t) && SingleLine(subject) && NoBlankLine(CRLF + header + CRLF) {
      ParseRaw(t, subject, header, body);
    }
  }
}

=== FILE: messages.dfy ===
/**
 * The outgoing message as the sender sees it, the module's two settings,
 * and the rule that decides the "from" identity before sending
 * (`WireMailGmail::___send` and `sendGmailTo`).
 */
module Messages {
  import opened ByteStrings

  /** The module's settings `fromGoogleEmail` and `fromGoogleName` (both "" when the module is constructed). */
  datatype Config = Config(fromGoogleEmail: Bytes, fromGoogleName: Bytes)

  /**
   * The message fields the sender reads or writes.  `to` keeps WireMail's
   * recipient order; `toName` maps a recipient address to its display name.
   */
  datatype Mail = Mail(
    to: seq<Bytes>,
    toName: map<Bytes, Bytes>,
    from: Bytes,
    fromName: Bytes,
    subject: Bytes,
    body: Bytes,
    bodyHTML: Bytes)

  /**
   * The WireMail services the sender consumes but does not define:
   * `renderMailHeader`, `renderMailBody`, `encodeSubject` and
   * `bundleEmailAndName`.  Their output format is not part of this model.
   */
  datatype Renderer = Renderer(
    header: Mail -> Bytes,
    body: Mail -> Bytes,
    encodeSubject: Bytes -> Bytes,
    bundle: (Bytes, Bytes) -> Bytes)

  /** Who the Gmail API is told is sending: a configured address, or the account the client was authenticated as. */
  datatype Identity = Account(email: Bytes) | Me

  /** The literal `"me"`, Gmail's name for the authenticated account. */
  const ME: Bytes := Ascii("me")

  /** The user-id string handed to the Gmail API for an identity. */
  function IdentityText(id: Identity): Bytes
  {
    match id
    case Account(email) => email
    case Me => ME
  }

  /**
   * The identity `sendGmailTo` passes to the transport: the configured
   * address when it is truthy, otherwise `"me"`.
   */
  function SenderIdentity(cfg: Config): (id: Identity)
    ensures Truthy(cfg.fromGoogleEmail) <==> id.Account?
    ensures id.Account? ==> id.email == cfg.fromGoogleEmail
    ensures IdentityText(id) == (if Truthy(cfg.fromGoogleEmail) then cfg.fromGoogleEmail else ME)
  {
    if Truthy(cfg.fromGoogleEmail) then Account(cfg.fromGoogleEmail) else Me
  }

  /**
   * The from step of `___send`: a configured address always replaces the
   * message's from address; a configured name is used only when the message
   * has no from name of its own.  Nothing else in the message changes.
   */
  function ApplyFrom(cfg: Config, m: Mail): (m': Mail)
    ensures Truthy(cfg.fromGoogleEmail) ==> m'.from == cfg.fromGoogleEmail
    ensures !Truthy(cfg.fromGoogleEmail) ==> m'.from == m.from
    ensures m'.fromName != m.fromName ==> Truthy(cfg.fromGoogleName) && !Truthy(m.fromName)
    ensures Truthy(cfg.fromGoogleName) && !Truthy(m.fromName) ==> m'.fromName == cfg.fromGoogleName
    ensures m'.(from := m.from, fromName := m.fromName) == m
  {
    var withEmail := if Truthy(cfg.fromGoogleEmail) then m.(from := cfg.fromGoogleEmail) else m;
    if Truthy(cfg.fromGoogleName) && !Truthy(withEmail.fromName) then
      withEmail.(fromName := cfg.fromGoogleName)
    else withEmail
  }

  /** Applying the from step a second time changes nothing. */
  lemma ApplyFromIdempotent(cfg: Config, m: Mail)
    ensures ApplyFrom(cfg, ApplyFrom(cfg, m)) == ApplyFrom(cfg, m)
  {
  }
}

=== FILE: transport.dfy ===
/**
 * Resolution of the Gmail service (`WireMailGmail::getGmailService`): the
 * sender keeps one cache slot for the service handle, and reports a failed
 * resolution once as an error and once as a log entry.
 */
module Transport {
  import opened Wrappers
  import opened ByteStrings
  import opened Messages

  /** An opaque `Google_Service_Gmail` object. */
  datatype Handle = Handle(id: nat)

  /** How one call into the Google client library ended; `Threw` is an `\Exception`, which the `catch` handles. */
  datatype Call<+T> = Returned(value: T) | ReturnedNull | Threw(message: Bytes)

  /**
   * What the environment would answer to the three steps of resolution:
   * fetching the GoogleClientAPI module, asking it for a client, and
   * constructing the Gmail service from that client.
   */
  datatype Provider = Provider(apiModule: Call<()>, client: Call<()>, service: Call<Handle>)

  /** A message shown to the user through `error()`; `DecodedJson` is text `json_decode` was applied to first. */
  datatype Notice = Text(text: Bytes) | DecodedJson(json: Bytes)

  /**
   * The part of a `WireMailGmail` instance that sending reads and writes:
   * its settings, the cached service, and the errors and log entries it has
   * emitted so far (both only ever appended to).
   */
  datatype Sender = Sender(config: Config, service: Option<Handle>, errors: seq<Notice>, log: seq<Bytes>)

  const CLASS_NAME: Bytes := Ascii("WireMailGmail")
  const MODULE_REQUIRED: Bytes := Ascii("The GoogleClientAPI module is required")
  // Two literals: the verifier checks a literal this long for ASCII only in pieces.
  const NO_CLIENT: Bytes := Ascii("Unable to get Google client ") + Ascii("from GoogleClientAPI module")
  const NO_SERVICE: Bytes := Ascii("Unable to get Google_Service_Gmail")

  /** `$this->className() . ': '`, the prefix of a resolution error. */
  const ERROR_PREFIX: Bytes := CLASS_NAME + Ascii(": ")

  /**
   * A freshly constructed sender: both settings are "" and no service is
   * cached.  ProcessWire loads the stored settings into `config` afterwards.
   */
  function NewSender(): (s: Sender)
    ensures s.config == Config([], [])
    ensures s.service.None? && s.errors == [] && s.log == []
  {
    Sender(Config([], []), None, [], [])
  }

  /** With the settings as constructed, mail goes out as `"me"` and the from step changes nothing. */
  lemma NewSenderDefaults(m: Mail)
    ensures SenderIdentity(NewSender().config) == Me
    ensures IdentityText(SenderIdentity(NewSender().config)) == ME
    ensures ApplyFrom(NewSender().config, m) == m
  {
  }

  /**
   * The body of the `try` in `getGmailService`: the handle, or the message of
   * the first exception raised (a null step raises its own fixed message).
   */
  function Acquire(p: Provider): (r: Result<Handle, Bytes>)
    ensures r.Success? <==> p.apiModule.Returned? && p.client.Returned? && p.service.Returned?
    ensures r.Success? ==> r.value == p.service.value
    ensures p.apiModule.ReturnedNull? ==> r == Failure(MODULE_REQUIRED)
    ensures p.apiModule.Returned? && p.client.ReturnedNull? ==> r == Failure(NO_CLIENT)
    ensures p.apiModule.Returned? && p.client.Returned? && p.service.ReturnedNull? ==> r == Failure(NO_SERVICE)
    ensures p.apiModule.Threw? ==> r == Failure(p.apiModule.message)
    ensures p.apiModule.Returned? && p.client.Threw? ==> r == Failure(p.client.message)
    ensures p.apiModule.Returned? && p.client.Returned? && p.service.Threw? ==> r == Failure(p.service.message)
  {
    match p.apiModule
    case Threw(e) => Failure(e)
    case ReturnedNull => Failure(MODULE_REQUIRED)
    case Returned(_) =>
      match p.client
      case Threw(e) => Failure(e)
      case ReturnedNull => Failure(NO_CLIENT)
      case Returned(_) =>
        match p.service
        case Threw(e) => Failure(e)
        case ReturnedNull => Failure(NO_SERVICE)
        case Returned(h) => Success(h)
  }

  /** The sender after a call to `getGmailService`, and what the call returned. */
  datatype Resolution = Resolution(sender: Sender, handle: Option<Handle>)

  /**
   * `getGmailService`: a cached handle is returned without consulting the
   * provider; otherwise a successful acquisition is cached, and a failed one
   * leaves the cache empty and appends one prefixed error and one identical
   * log entry.
   */
  function Resolve(s: Sender, p: Provider): (r: Resolution)
    ensures s.service.Some? ==> r == Resolution(s, s.service)
    ensures r.handle == r.sender.service
    ensures r.sender.config == s.config
    ensures r.handle.Some? ==> r.sender.errors == s.errors && r.sender.log == s.log
    ensures s.service.None? ==> (r.handle.Some? <==> Acquire(p).Success?)
    ensures s.service.None? && Acquire(p).Success? ==> r.handle == Some(Acquire(p).value)
    ensures r.handle.None? ==>
      && r.sender.errors == s.errors + [Text(ERROR_PREFIX + Acquire(p).error)]
      && r.sender.log == s.log + [ERROR_PREFIX + Acquire(p).error]
  {
    if s.service.Some? then Resolution(s, s.service)
    else
      match Acquire(p)
      case Success(h) => Resolution(s.(service := Some(h)), Some(h))
      case Failure(e) =>
        var error := ERROR_PREFIX + e;
        Resolution(s.(errors := s.errors + [Text(error)], log := s.log + [error]), None)
  }

  /**
   * Once resolution has succeeded, every later resolution returns the same
   * handle and changes nothing, whatever the provider would now answer.
   */
  lemma ResolveMemoised(s: Sender, p: Provider, later: Provider)
    requires Resolve(s, p).handle.Some?
    ensures Resolve(Resolve(s, p).sender, later) == Resolve(s, p)
  {
  }

  /**
   * A failed resolution emits exactly one error and one log entry, both
   * starting with the class name, and leaves the cache empty.
   */
  lemma ResolveFailureReported(s: Sender, p: Provider)
    requires Resolve(s, p).handle.None?
    ensures var s' := Resolve(s, p).sender;
      && s'.service.None?
      && |s'.errors| == |s.errors| + 1 && s'.errors[..|s.errors|] == s.errors
      && |s'.log| == |s.log| + 1 && s'.log[..|s.log|] == s.log
      && s'.errors[|s.errors|].Text?
      && StartsWith(s'.errors[|s.errors|].text, ERROR_PREFIX)
      && StartsWith(s'.log[|s.log|], ERROR_PREFIX)
  {
  }

  /**
   * Nothing is memoised after a failure: the next resolution asks the
   * provider again and succeeds if the provider now can.
   */
  lemma ResolveRetriesAfterFailure(s: Sender, p: Provider, later: Provider)
    requires Resolve(s, p).handle.None?
    requires Acquire(later).Success?
    ensures Resolve(Resolve(s, p).sender, later).handle == Some(Acquire(later).value)
  {
  }
}

=== FILE: wrappers.dfy ===
/** Failure-carrying datatypes used in place of PHP's null returns and exceptions. */
module Wrappers {

  /** A value that may be absent (PHP's `null`). */
  datatype Option<+T> = None | Some(value: T)

  /** A value, or the message of the exception that replaced it. */
  datatype Result<+T, +E> = Success(value: T) | Failure(error: E)
}
